=== FILE: README.md ===
# tldw core, modelled in Dafny

`tldw` summarises a YouTube video. It fetches the English captions with `yt-dlp`, reduces
the caption file to prose, and asks the OpenAI chat API for a Markdown summary. Transcripts
longer than `MAX_TOKENS` bytes are cut into consecutive slices, and each slice is summarised
separately. This project models the three parts of that pipeline that do not need the outside
world:

- **The caption normaliser** (`processing.dfy`, module `Processing`) covers `cleanup_buffer`
  and the line loop of `process_file`. All three regex replacements are modelled on general
  text: the cue-timing regex, the `&nbsp;` regex and the multi-line empty-line regex. Lemmas
  show that on one line as `BufRead::lines` yields it (no `\n`), the first and last are
  no-ops. Cleanup is then the `&nbsp;` replacement alone. `ProcessFile` is the loop with its
  `seen` set and `buffer` sequence, proved against the function `Kept`. The lemmas about
  `Kept` cover:
  - colon lines are dropped;
  - kept lines are distinct;
  - every colon-free cleaned line is kept, and every kept line comes from the input;
  - kept lines keep first-occurrence order;
  - normalising twice changes nothing.
- **The summariser** (`summarizer.dfy`, module `Summarizer`) covers `process_message_stream`,
  the two loops of `process_long_input`, `process_short_input` and the stream-creation
  error classification. The completion API is an oracle of type `Network`. For a prompt and a
  model it either refuses to open a stream (`CreateError` with the message) or opens one that
  delivers a fixed sequence of events. Each method is proved equal to a specification
  function (`Transcribe`, `DecodeChunks`, `LongSummary`, `ShortSummary`). The prompts sent
  are returned as a ghost trace, so the lemmas can say which calls happen, and in which
  order. Each nested loop body of the source is a method of its own. The loop over one
  response's choices is `CollectContents`. The second loop of `process_long_input` is
  `SummarizeChunkLoop`, whose single pass is `ExchangeChunk`.
- **The entry-point decisions** (`entry.dfy`, module `Entry`) are `extract_video_id`, the
  engine `match` and the long/short/failed routing of `main`.

`text.dfy` gives `contains`, `join` and concatenation the meaning of the Rust standard
library calls the program makes. Its `Split` is `str::split` on one character. The program
never calls it; it serves only to state idempotence (`Processing.Idempotent`). `wrappers.dfy` holds `Option` and `Result`.

Text handed to the summariser is a byte sequence (`Summarizer.Bytes`), because
`input.len()` and `as_bytes().chunks(MAX_TOKENS)` count bytes. The deltas and results are
strings. The three `PROMPTS` entries are a parameter of type `Catalog`, a sequence of exactly
three byte strings whose wording is not modelled.

Two panics of the source are modelled as failure values, not excluded by preconditions:
- `PROMPTS[prompt]` with an index of 3 or more becomes `PromptIndexOutOfRange`. On the long
  path it is raised only when there is at least one chunk, before any call. On the short
  path it is raised for every input, the empty one included, before the one call.
- `String::from_utf8(chunk).unwrap()` becomes `ChunkNotUtf8(k)`, where `k` is the first chunk
  that does not start and end on a character boundary. It is detected before any call.

The code behaves as follows where a reader might expect otherwise:
- Kept lines are joined with `"\n"`, not with spaces.
- Lines are not trimmed, and runs of whitespace are not collapsed.
- Inline `<c>` tags are not stripped while keeping the word. Every line with a `:` is
  dropped whole. That removes timing lines, `Kind:`/`Language:` headers, lines with inline
  timing tags and any prose with
  a colon. A `WEBVTT` header line has no colon and is kept.
- An empty line is kept once, not removed.
- There is no "empty transcript" sentinel. An empty transcript takes the short path and is
  sent as the prompt followed by one space.
- Chunks are measured in bytes. An empty input gives no chunks.
- A stream error carries only its message, not the size of the partial text.
- The classification of a stream-creation error decides only which diagnosis is logged. The
  same error is returned in every branch. The model records the diagnosis in
  `CreateFailed(kind, message)` and keeps the message verbatim.

## Model

| member | source | states |
|---|---|---|
| `Text.ContainsIffOccurs` | src/summarizer.rs:60-66 | `str::contains` holds exactly when the pattern occurs at some position |
| `Text.SplitJoin` | src/processing.rs:69 | splitting `join("\n")` of newline-free lines on `\n` gives the lines back |
| `Processing.BlankRun` | src/processing.rs:79 | the match of `^\s*\n` at a line start is all whitespace and ends with a newline, and it is the greedy one: every newline after it is preceded by a non-whitespace character, so the match is empty only when no whitespace-only prefix ends in a newline |
| `Processing.RemoveCueTimings` | src/processing.rs:74-76 | definition: scanning left to right, every 30-character window `<clock> --> <clock>\n` is removed, and every other character is kept |
| `Processing.ReplaceNbsp` | src/processing.rs:77-78 | definition: scanning left to right, every `&nbsp;` becomes one space, and every other character is kept |
| `Processing.RemoveBlankLines` | src/processing.rs:79-80 | definition: at the start of the text and after every newline, the greedy match of `\s*\n` is removed |
| `Processing.CleanupBuffer` | src/processing.rs:73-82 | definition: the cue-timing, `&nbsp;` and empty-line replacements, in the order the source applies them |
| `Processing.Kept` | src/processing.rs:57-68 | definition: the lines `buffer` holds after the loop; each cleaned line is appended unless it contains `:` or is already held |
| `Processing.Normalize` | src/processing.rs:57-70 | definition: the kept lines joined with `"\n"` |
| `Processing.RemoveCueTimingsOfLine` | src/processing.rs:74-76 | the timestamp regex never changes a line without `\n` |
| `Processing.RemoveBlankLinesOfLine` | src/processing.rs:79-80 | the empty-line regex never changes a line without `\n`, so an empty line survives cleanup |
| `Processing.ReplaceNbspKeepsChar` | src/processing.rs:77-78 | the `&nbsp;` replacement neither adds nor removes any character outside `&nbsp;` and space (in particular `:` and `\n`) |
| `Processing.CleanupOfLine` | src/processing.rs:73-82 | on a line from `BufRead::lines`, `cleanup_buffer` is exactly the `&nbsp;` replacement, and the line stays newline-free |
| `Processing.ReplaceNbspLeavesNone` | src/processing.rs:77-78 | no `&nbsp;` is left anywhere after the `&nbsp;` replacement |
| `Processing.ReplaceNbspFixed` | src/processing.rs:77-78 | text without `&nbsp;` is unchanged |
| `Processing.ReplaceNbspAt` | src/processing.rs:77-78 | each `&nbsp;` becomes exactly one space, and the text on its two sides is cleaned independently |
| `Processing.ReplaceNbspNoAmpersand` | src/processing.rs:77-78 | a line without `&` is unchanged by the `&nbsp;` replacement |
| `Processing.PlainLine` | src/processing.rs:73-82 | a line without `\n` and `&` is its own cleaned form |
| `Processing.ProcessFile` | src/processing.rs:50-71 | the loop with `seen` and `buffer` returns the kept lines joined by `"\n"`, and `""` for no lines |
| `Processing.KeptColonFree` | src/processing.rs:60-62 | no kept line contains `:` |
| `Processing.KeptDistinct` | src/processing.rs:64-67 | kept lines are pairwise distinct by exact string equality |
| `Processing.KeptComplete` | src/processing.rs:57-68 | every cleaned input line without `:` is among the kept lines |
| `Processing.KeptSound` | src/processing.rs:57-68 | every kept line is the cleaned form of some input line |
| `Processing.KeptInFirstOccurrenceOrder` | src/processing.rs:57-68 | if kept line a comes before kept line b, every input occurrence of b is preceded by an occurrence of a |
| `Processing.ColonLineDropped` | src/processing.rs:59-62 | a line with `:` still has it after cleanup and is never kept |
| `Processing.CueOnlyCaptions` | src/processing.rs:57-70 | cue-only captions `t0,a,t1,a,t2,b` normalise to `a + "\n" + b` |
| `Processing.KeptStep` | src/processing.rs:57-68 | one pass of the loop: the next line is appended when its cleaned form has no `:` and is new, else the kept lines stay as they are |
| `Processing.KeptDropsColonLine` | src/processing.rs:59-62 | appending a line that holds `:` leaves the kept lines unchanged |
| `Processing.KeptSkipsSeen` | src/processing.rs:64-67 | appending a plain line already kept leaves the kept lines unchanged |
| `Processing.KeptAddsNew` | src/processing.rs:64-67 | appending a plain, colon-free line not yet kept adds exactly that line at the end |
| `Processing.CueOnlyKept` | src/processing.rs:57-68 | from `t0,a,t1,a,t2,b` the lines `a` and `b` are kept, in that order |
| `Processing.NbspVariantCollapses` | src/processing.rs:59-67 | for plain `a`, `b`: `a b` followed by `a&nbsp;b` keeps the single line `a b` |
| `Processing.EmptyLineKeptOnce` | src/processing.rs:57-68 | an empty input line is kept, exactly once |
| `Processing.KeptOfNormal` | src/processing.rs:57-68 | distinct, colon-free, `&nbsp;`-free, newline-free lines are kept unchanged |
| `Processing.Idempotent` | src/processing.rs:57-70 | splitting the result on `\n` and normalising again gives the same result |
| `Summarizer.Classify` | src/summarizer.rs:58-74 | quota exhaustion exactly when a quota marker occurs; bad key exactly when no quota marker but a key marker occurs; otherwise other |
| `Summarizer.QuotaWins` | src/summarizer.rs:60-64 | a quota marker anywhere in the message is classified as quota exhaustion, whatever else the message contains |
| `Summarizer.KeyMarkerIsBadKey` | src/summarizer.rs:60-70 | a message with a key marker is never classified as "other" |
| `Summarizer.RefusedStreamFails` | src/summarizer.rs:58-74 | a stream that cannot be created fails in every branch, keeping the API's message |
| `Summarizer.Deltas` | src/summarizer.rs:83-101 | definition: every `Some` content of every choice of every response, in arrival order |
| `Summarizer.Transcribe` | src/summarizer.rs:53-127 | definition: a refused stream fails with its classified message; otherwise the first error event fails the exchange, and a stream without one yields its deltas concatenated |
| `Summarizer.Chunks` | src/summarizer.rs:140 | definition: consecutive slices of 15000 bytes, the last one shorter, none for empty input |
| `Summarizer.DecodeChunks` | src/summarizer.rs:140-142 | definition: the chunks, or the index of the first chunk that `String::from_utf8` rejects: it starts on a UTF-8 continuation byte, or the byte after its end is one |
| `Summarizer.SummarizeChunks` | src/summarizer.rs:145-155 | definition: one exchange per chunk with the template followed by the chunk, in order, concatenating the texts and stopping at the first failure |
| `Summarizer.LongSummary` | src/summarizer.rs:130-156 | definition: decoding failure first, then `Ok("")` for no chunks, then the prompt-index failure, then the per-chunk exchanges |
| `Summarizer.ShortSummary` | src/summarizer.rs:158-169 | definition: the prompt-index failure, or one exchange with the template, a space and the input |
| `Summarizer.FirstErrorIndex` | src/summarizer.rs:83-107 | the returned position is the first error event of the stream, or its length when there is none |
| `Summarizer.ProcessMessageStream` | src/summarizer.rs:37-128 | the stream loop returns `Transcribe`; on success the delta count is the number of `Some` contents |
| `Summarizer.CollectContents` | src/summarizer.rs:86-100 | the loop over one response's choices returns its `Some` contents in order, with their count |
| `Summarizer.TranscribeOk` | src/summarizer.rs:83-127 | an exchange succeeds exactly when the stream opens and has no error event; the text is every `Some` delta of every response, in arrival order |
| `Summarizer.TranscribeFirstError` | src/summarizer.rs:103-106 | the first error event aborts the exchange with that error and no text |
| `Summarizer.NoContentNoDeltas` | src/summarizer.rs:86-87 | choices whose content is `None` contribute no delta |
| `Summarizer.EmptyResponsesNoDeltas` | src/summarizer.rs:83-101 | responses without content give no deltas at all |
| `Summarizer.EmptyStreamIsEmptyText` | src/summarizer.rs:123-127 | a completed stream without content is `Ok("")`, not an error |
| `Summarizer.ChunksConcat` | src/summarizer.rs:140-142 | concatenating the chunks gives the input back |
| `Summarizer.ChunkSizes` | src/summarizer.rs:140 | every chunk has 1 to 15000 bytes; all but the last have exactly 15000 |
| `Summarizer.ChunkCount` | src/summarizer.rs:140 | there are ceil(len / 15000) chunks, so none for empty input |
| `Summarizer.ChunkIsSlice` | src/summarizer.rs:140 | chunk k is the input slice from byte 15000·k to byte min(15000·(k+1), len) |
| `Summarizer.OneChunkAtLimit` | src/summarizer.rs:140 | an input of exactly 15000 bytes is a single chunk |
| `Summarizer.TwoChunksFor20000` | src/summarizer.rs:140 | 20000 bytes make two chunks of 15000 and 5000 bytes |
| `Summarizer.DecodeChunksAreChunks` | src/summarizer.rs:140-142 | successful decoding yields exactly the byte chunks |
| `Summarizer.DecodeChunksIff` | src/summarizer.rs:141 | decoding fails exactly when a cut at a multiple of 15000 lands on a UTF-8 continuation byte |
| `Summarizer.SplitChunks` | src/summarizer.rs:136-142 | the chunking loop returns `DecodeChunks` of the input |
| `Summarizer.PromptsFor` | src/summarizer.rs:148-150 | the prompt of chunk k is `PROMPTS[prompt]` immediately followed by chunk k, with no separator |
| `Summarizer.ProcessLongInput` | src/summarizer.rs:130-156 | the long path returns `LongSummary` and sends `LongRequests` |
| `Summarizer.SummarizeWith` | src/summarizer.rs:145-155 | definition: no chunks give `Ok("")`; otherwise an index of 3 or more fails before any call, and a valid one runs the per-chunk exchanges |
| `Summarizer.SummarizeChunkLoop` | src/summarizer.rs:145-155 | the chunk loop, which indexes `PROMPTS` on every pass, returns `SummarizeWith` and sends exactly its requests |
| `Summarizer.ExchangeChunk` | src/summarizer.rs:147-152 | one pass sends the template followed by chunk `i`; a failure ends the run with that error, and a success extends the text by the exchange's result |
| `Summarizer.AllChunksSucceed` | src/summarizer.rs:145-155 | when every chunk's exchange succeeds, the result is their texts concatenated in chunk order, after exactly one call per chunk, in order |
| `Summarizer.FirstChunkFailure` | src/summarizer.rs:151 | when chunk k fails first, the result is that error with no partial text, and no chunk after k is sent |
| `Summarizer.SummarizeOkIff` | src/summarizer.rs:145-155 | the long path succeeds exactly when every chunk's exchange succeeds |
| `Summarizer.ShortPrompt` | src/summarizer.rs:164 | the short-path prompt is the template, one space, then the input, and the three parts can be read back |
| `Summarizer.ProcessShortInput` | src/summarizer.rs:158-169 | one exchange with `PROMPTS[prompt] + " " + input`, returned unchanged; an index of 3 or more fails without a call |
| `Entry.FindMatch` | src/main.rs:33-34 | the regex search yields the leftmost position where a delimiter is followed by 11 id characters, or none |
| `Entry.ExtractVideoId` | src/main.rs:32-35 | a returned id has 11 `[\w-]` characters and follows the leftmost qualifying delimiter; `None` exactly when no delimiter qualifies |
| `Entry.SkipsShortRun` | src/main.rs:33-34 | in `be/w?v=dQw4w9WgXcQ` the `/` is not followed by 11 id characters, so it is skipped and the id after `=` is captured |
| `Entry.SelectEngine` | src/main.rs:61-64 | engine 4 selects the custom model `gpt-4o-2024-05-13`, every other value `Gpt4` |
| `Entry.DefaultEngineIsCustom` | src/main.rs:25-26 | the default engine value 4 selects the custom model |
| `Entry.Route` | src/main.rs:69-82 | a failed download yields `yt-dlp command failed with status: …` and no summariser path; otherwise the long path uses prompt 2 and the short path the user's prompt |
| `Entry.RouteByChunkCount` | src/main.rs:73-77 | the long path is taken exactly when the transcript has at least two chunks, the short path when it has at most one, so 15000 bytes is short |
| `Entry.LongPathPromptInRange` | src/main.rs:74 | the long path's fixed prompt index never fails on the catalogue index |
| `Entry.NoIndexFailure` | src/summarizer.rs:148-151 | the source indexes `PROMPTS` inside the chunk loop; the model resolves that index once in `LongSummary`, before the per-chunk exchanges, and this states that those exchanges never produce the index failure |
| `Entry.DefaultPromptInRange` | src/main.rs:28-29 | without `--prompt`, the short path is exactly one exchange with the second catalogue entry, and it never fails on the prompt index |

## Left out

- `download_subtitles` and `process_subtitles` are left out. They spawn `yt-dlp`, create and
  remove `/tmp/out.txt`, and read and remove `/tmp/output.en.vtt`. This is process and file
  I/O. `ProcessFile` takes the lines the file would yield, and `Entry.Download` stands for
  the outcome.
- `build_chat_client` and `create_stream` are network calls. They are replaced by the
  `Network` oracle. The request builder's `?` errors are not modelled, because they cannot
  arise for a model string and one user message.
- The `Arc<Mutex<…>>` around `buffer` and `chunk_count` is a plain local sequence and
  counter.
- `print!`, `flush` and every `log::` call are left out, because they produce no result.
  This includes the empty-response warning.
- `generate_filename` (which reads the clock), `write_to_file`, clap argument parsing and the
  `OPENAI_API_KEY` lookup are left out. So is the `video_id.unwrap()` in `main`, which panics
  after the summary has been computed when the URL has no id.
- main.rs calls `build_chat_client` and `process_long_input` with signatures that
  summarizer.rs does not have, and it uses the `chatgpt` crate's engine type. Only the
  routing decision of `main` is modelled, not a type-checked call chain.
- The wording of `PROMPTS` is not modelled. The catalogue is three opaque byte strings.
- `Entry.ExtractVideoId`: `\w` is Unicode-aware in the regex crate. The model accepts only
  ASCII letters, digits and `_`. The `(?i)` flag does not change either character class.
- `Processing.RemoveCueTimingsOfLine`: `\d` is Unicode-aware in the regex crate. The model
  accepts only ASCII digits. Every match also needs a `\n`, so this does not affect lines.
- `Summarizer.DecodeChunksIff`: the `from_utf8` panic is modelled as a cut on a UTF-8
  continuation byte. That test is exact for valid UTF-8 input, which a Rust `String` always
  is. UTF-8 validity itself is not modelled.
- `Processing.Idempotent` is stated for a plain split on `\n`, which differs from
  `BufRead::lines` in two ways.
  - `BufRead::lines` drops a `\r` before each `\n`. So a kept line ending in `\r` that is not
    the last line would lose that `\r` on a second pass.
  - `BufRead::lines` yields no final empty line after a trailing `\n`. So when the empty line
    is the last one kept, it is lost when the file is read again: `["a", ""]` normalises to
    `"a\n"`, which reads back as `["a"]` and normalises to `"a"`.
- `Summarizer.ProcessMessageStream`: the delta count is stated only for a successful stream.
  On failure the source returns no count.

=== FILE: entry.dfy ===
/**
 * The decisions of src/main.rs: the video id taken from the URL, the chat engine
 * chosen by `--engine`, and which summariser path the transcript takes.
 */
module Entry {
  import opened Wrappers
  import Summarizer

  /** `[\w-]`, with `\w` restricted to ASCII letters, digits and '_'. */
  predicate IsIdChar(c: char)
  {
    ('a' <= c <= 'z') || ('A' <= c <= 'Z') || ('0' <= c <= '9') || c == '_' || c == '-'
  }

  /** `[/|=]` */
  predicate IsDelimiter(c: char)
  {
    c == '/' || c == '|' || c == '='
  }

  /** A video id has exactly this many characters. */
  const IdLength: nat := 11

  /** The pattern `[/|=]([\w-]{11})` matches at position `i` of `url`. */
  predicate MatchesAt(url: string, i: int)
  {
    0 <= i && i + 1 + IdLength <= |url| && IsDelimiter(url[i]) &&
    forall k :: i + 1 <= k < i + 1 + IdLength ==> IsIdChar(url[k])
  }

  /** The regex search from position `i` on: the leftmost position at which the pattern matches. */
  function FindMatch(url: string, i: nat): (r: Option<nat>)
    requires i <= |url|
    ensures r.Some? ==> i <= r.value && MatchesAt(url, r.value)
    ensures r.Some? ==> forall j :: i <= j < r.value ==> !MatchesAt(url, j)
    ensures r.None? ==> forall j :: i <= j < |url| ==> !MatchesAt(url, j)
    decreases |url| - i
  {
    if i == |url| then None
    else if MatchesAt(url, i) then Some(i)
    else FindMatch(url, i + 1)
  }

  /**
   * `extract_video_id`: the 11 characters captured after the leftmost delimiter that
   * is followed by 11 id characters. A longer run is cut to its first 11 characters.
   */
  function ExtractVideoId(url: string): (id: Option<string>)
    ensures id.Some? ==> |id.value| == IdLength
    ensures id.Some? ==> forall k :: 0 <= k < |id.value| ==> IsIdChar(id.value[k])
    ensures id.Some? ==> exists i ::
      && MatchesAt(url, i)
      && id.value == url[i + 1..i + 1 + IdLength]
      && forall j :: 0 <= j < i ==> !MatchesAt(url, j)
    ensures id.None? <==> forall i :: 0 <= i < |url| ==> !MatchesAt(url, i)
  {
    match FindMatch(url, 0)
    case None => None
    case Some(i) =>
      var id := url[i + 1..i + 1 + IdLength];
      assert forall k :: 0 <= k < |id| ==> id[k] == url[i + 1 + k];
      Some(id)
  }

  /**
   * An earlier delimiter without 11 id characters after it is skipped: in a short
   * `youtu.be`-style path the `/` is passed over and the id after `v=` is captured.
   */
  lemma SkipsShortRun()
    ensures ExtractVideoId("be/w?v=dQw4w9WgXcQ") == Some("dQw4w9WgXcQ")
  {
    var url := "be/w?v=dQw4w9WgXcQ";
    forall j | 0 <= j < 6
      ensures !MatchesAt(url, j)
    {
      if j == 2 {
        assert !IsIdChar(url[4]);
      } else {
        assert !IsDelimiter(url[j]);
      }
    }
    assert MatchesAt(url, 6) by {
      assert forall k :: 7 <= k < 18 ==> IsIdChar(url[k]);
    }
    assert url[7..18] == "dQw4w9WgXcQ";
  }

  /** The chat engine of the `chatgpt` crate that `main` builds its client for. */
  datatype Engine = Custom(name: string) | Gpt4

  newtype u8 = x: int | 0 <= x < 256

  /** `--engine` and `--prompt` default to 4 and 1. */
  const DefaultEngine: u8 := 4
  const DefaultPrompt: nat := 1

  /** The model name engine 4 selects. */
  const CustomModel: string := "gpt-4o-2024-05-13"

  /** The `match args.engine` of `main`. */
  function SelectEngine(engine: u8): (e: Engine)
    ensures e.Custom? <==> engine == 4
    ensures e.Custom? ==> e.name == CustomModel
  {
    match engine
    case 4 => Custom(CustomModel)
    case _ => Gpt4
  }

  /** Without `--engine`, the custom model is used. */
  lemma DefaultEngineIsCustom()
    ensures SelectEngine(DefaultEngine) == Custom("gpt-4o-2024-05-13")
  {
  }

  /** What `download_subtitles` reported, with the transcript `process_subtitles` read on success. */
  datatype Download = Downloaded(transcript: Summarizer.Bytes) | DownloadFailed(status: string)

  /** What `main` does with the transcript. */
  datatype Action =
    | LongPath(input: Summarizer.Bytes, prompt: nat)
    | ShortPath(input: Summarizer.Bytes, prompt: nat)
    | Report(message: string)

  /** The prompt index `main` passes on the long path. */
  const LongPromptIndex: nat := 2

  const FailurePrefix: string := "yt-dlp command failed with status: "

  /** The routing of `main`: over `MAX_TOKENS` bytes the long path with prompt 2, else the short path. */
  function Route(download: Download, userPrompt: nat): (a: Action)
    ensures a.Report? <==> download.DownloadFailed?
    ensures a.Report? ==> a.message == FailurePrefix + download.status
    ensures a.LongPath? ==> a.input == download.transcript && a.prompt == LongPromptIndex
    ensures a.ShortPath? ==> a.input == download.transcript && a.prompt == userPrompt
  {
    match download
    case DownloadFailed(status) => Report(FailurePrefix + status)
    case Downloaded(input) =>
      if |input| > Summarizer.MaxTokens then LongPath(input, LongPromptIndex)
      else ShortPath(input, userPrompt)
  }

  /**
   * The routing agrees with the chunking: the long path always has at least two
   * chunks, the short path at most one (a transcript of exactly `MAX_TOKENS` bytes is short).
   */
  lemma RouteByChunkCount(download: Download, userPrompt: nat)
    requires download.Downloaded?
    ensures Route(download, userPrompt).LongPath? <==> |Summarizer.Chunks(download.transcript)| >= 2
    ensures Route(download, userPrompt).ShortPath? <==> |Summarizer.Chunks(download.transcript)| <= 1
  {
    Summarizer.ChunkCount(download.transcript);
  }

  /** The long path's fixed prompt index is within the catalogue, so it never panics on the index. */
  lemma LongPathPromptInRange(net: Summarizer.Network, prompts: Summarizer.Catalog, input: Summarizer.Bytes, model: string)
    ensures !Summarizer.LongSummary(net, prompts, input, LongPromptIndex, model).Err? ||
      !Summarizer.LongSummary(net, prompts, input, LongPromptIndex, model).error.PromptIndexOutOfRange?
  {
    match Summarizer.DecodeChunks(input)
    case Err(_) =>
    case Ok(chunks) =>
      if chunks != [] {
        NoIndexFailure(net, prompts[LongPromptIndex], chunks, model);
      }
  }

  /**
   * Without `--prompt`, the short path is one exchange with the second catalogue entry,
   * so it never fails on the prompt index.
   */
  lemma DefaultPromptInRange(net: Summarizer.Network, prompts: Summarizer.Catalog, input: Summarizer.Bytes, model: string)
    ensures Summarizer.ShortSummary(net, prompts, input, DefaultPrompt, model)
      == Summarizer.Transcribe(net, Summarizer.ShortPrompt(prompts[1], input), model)
    ensures !Summarizer.ShortSummary(net, prompts, input, DefaultPrompt, model).Err? ||
      !Summarizer.ShortSummary(net, prompts, input, DefaultPrompt, model).error.PromptIndexOutOfRange?
  {
  }

  /** An exchange never fails on the prompt index. */
  lemma {:induction false} NoIndexFailure(net: Summarizer.Network, template: Summarizer.Bytes, chunks: seq<Summarizer.Bytes>, model: string)
    ensures !Summarizer.SummarizeChunks(net, template, chunks, model).Err? ||
      !Summarizer.SummarizeChunks(net, template, chunks, model).error.PromptIndexOutOfRange?
    decreases |chunks|
  {
    if chunks != [] {
      NoIndexFailure(net, template, chunks[1..], model);
    }
  }
}

=== FILE: processing.dfy ===
/**
 * The caption normaliser of src/processing.rs: `cleanup_buffer` (three regex
 * replacements on one line of text) and the line loop of `process_file`, which drops
 * every cleaned line holding a ':' and keeps the first occurrence of every other one.
 * The file is given as the sequence of lines `BufRead::lines` yields.
 */
module Processing {
  import opened Text

  /** `\d`, restricted to the ASCII digits. */
  predicate IsAsciiDigit(c: char)
  {
    '0' <= c <= '9'
  }

  /** `\s` of the regex crate: the characters with the Unicode White_Space property. */
  predicate IsWhiteSpace(c: char)
  {
    ('\t' <= c <= '\r') || c == ' ' || c == '\U{0085}' || c == '\U{00A0}' || c == '\U{1680}'
    || ('\U{2000}' <= c <= '\U{200A}') || c == '\U{2028}' || c == '\U{2029}'
    || c == '\U{202F}' || c == '\U{205F}' || c == '\U{3000}'
  }

  /** `\d{2}:\d{2}:\d{2}\.\d{3}` on a window of 12 characters. */
  predicate IsClock(s: string)
    requires |s| == 12
  {
    && IsAsciiDigit(s[0]) && IsAsciiDigit(s[1]) && s[2] == ':'
    && IsAsciiDigit(s[3]) && IsAsciiDigit(s[4]) && s[5] == ':'
    && IsAsciiDigit(s[6]) && IsAsciiDigit(s[7]) && s[8] == '.'
    && IsAsciiDigit(s[9]) && IsAsciiDigit(s[10]) && IsAsciiDigit(s[11])
  }

  /** Every match of the timestamp regex has this many characters. */
  const CueTimingLength: nat := 30

  /** The timestamp regex `<clock> --> <clock>\n` on a window of 30 characters. */
  predicate IsCueTiming(s: string)
    requires |s| == CueTimingLength
  {
    IsClock(s[..12]) && s[12..17] == " --> " && IsClock(s[17..29]) && s[29] == '\n'
  }

  /** `timestamp_regex.replace_all(text, "")`: scanning left to right, every match is removed. */
  function RemoveCueTimings(s: string): string
    decreases |s|
  {
    if |s| >= CueTimingLength && IsCueTiming(s[..CueTimingLength]) then
      RemoveCueTimings(s[CueTimingLength..])
    else if s == [] then []
    else [s[0]] + RemoveCueTimings(s[1..])
  }

  /** The HTML entity that `nbsp_regex` matches. */
  const Nbsp: string := "&nbsp;"

  /** `nbsp_regex.replace_all(text, " ")`: scanning left to right, every `&nbsp;` becomes one space. */
  function ReplaceNbsp(s: string): string
    decreases |s|
  {
    if StartsWith(s, Nbsp) then " " + ReplaceNbsp(s[|Nbsp|..])
    else if s == [] then []
    else [s[0]] + ReplaceNbsp(s[1..])
  }

  /**
   * Scanning the whitespace run at the start of `s` from position `i`, with `best`
   * the end of the last newline seen so far.
   */
  function BlankRunFrom(s: string, i: nat, best: nat): (n: nat)
    requires best <= i <= |s|
    requires best > 0 ==> s[best - 1] == '\n'
    requires forall k :: 0 <= k < i ==> IsWhiteSpace(s[k])
    requires forall k :: best <= k < i ==> s[k] != '\n'
    ensures best <= n <= |s|
    ensures n > 0 ==> s[n - 1] == '\n'
    ensures forall k :: 0 <= k < n ==> IsWhiteSpace(s[k])
    ensures forall k :: n <= k < |s| && s[k] == '\n' ==> exists m :: 0 <= m < k && !IsWhiteSpace(s[m])
    decreases |s| - i
  {
    if i < |s| && IsWhiteSpace(s[i]) then
      var next := if s[i] == '\n' then i + 1 else best;
      assert forall k :: next <= k < i + 1 ==> s[k] != '\n';
      BlankRunFrom(s, i + 1, next)
    else
      assert forall k :: best <= k < |s| && s[k] == '\n' ==> !IsWhiteSpace(s[i]) && i < k;
      best
  }

  /**
   * The length of the match of `^\s*\n` at the start of `s` (0 when there is none):
   * the greedy `\s*` gives back characters until the last newline of the whitespace run,
   * so no newline after the match is reached through whitespace alone.
   */
  function BlankRun(s: string): (n: nat)
    ensures n <= |s|
    ensures n > 0 ==> s[n - 1] == '\n'
    ensures forall k :: 0 <= k < n ==> IsWhiteSpace(s[k])
    ensures forall k :: n <= k < |s| && s[k] == '\n' ==> exists m :: 0 <= m < k && !IsWhiteSpace(s[m])
  {
    BlankRunFrom(s, 0, 0)
  }

  /**
   * `empty_line_regex.replace_all(text, "")` with the multi-line flag: `^` holds at the
   * start of the text and after every newline, and `lineStart` says whether it holds here.
   */
  function RemoveBlankLines(s: string, lineStart: bool): string
    decreases |s|
  {
    if s == [] then []
    else if lineStart && BlankRun(s) > 0 then RemoveBlankLines(s[BlankRun(s)..], true)
    else [s[0]] + RemoveBlankLines(s[1..], s[0] == '\n')
  }

  /** `cleanup_buffer`: the three replacements in the order the source applies them. */
  function CleanupBuffer(text: string): string
  {
    RemoveBlankLines(ReplaceNbsp(RemoveCueTimings(text)), true)
  }

  /** The timestamp regex needs a newline, so it never changes a line without one. */
  lemma {:induction false} RemoveCueTimingsOfLine(s: string)
    requires '\n' !in s
    ensures RemoveCueTimings(s) == s
    decreases |s|
  {
    if |s| >= CueTimingLength {
      assert s[..CueTimingLength][29] == s[29];
    }
    if s != [] {
      RemoveCueTimingsOfLine(s[1..]);
      assert [s[0]] + s[1..] == s;
    }
  }

  /** The empty-line regex needs a newline, so it never changes a line without one. */
  lemma {:induction false} RemoveBlankLinesOfLine(s: string, lineStart: bool)
    requires '\n' !in s
    ensures RemoveBlankLines(s, lineStart) == s
    decreases |s|
  {
    if s != [] {
      assert BlankRun(s) == 0;
      RemoveBlankLinesOfLine(s[1..], s[0] == '\n');
      assert [s[0]] + s[1..] == s;
    }
  }

  /** Replacing `&nbsp;` neither adds nor removes a character that is not in `&nbsp;` or a space. */
  lemma {:induction false} ReplaceNbspKeepsChar(s: string, c: char)
    requires c !in Nbsp && c != ' '
    ensures c in ReplaceNbsp(s) <==> c in s
    decreases |s|
  {
    if StartsWith(s, Nbsp) {
      ReplaceNbspKeepsChar(s[|Nbsp|..], c);
      assert s == s[..|Nbsp|] + s[|Nbsp|..];
    } else if s != [] {
      ReplaceNbspKeepsChar(s[1..], c);
      assert s == [s[0]] + s[1..];
    }
  }

  /**
   * On one line as `BufRead::lines` yields it (no newline), `cleanup_buffer` is the
   * `&nbsp;` replacement alone.
   */
  lemma CleanupOfLine(line: string)
    requires '\n' !in line
    ensures CleanupBuffer(line) == ReplaceNbsp(line)
    ensures '\n' !in CleanupBuffer(line)
  {
    RemoveCueTimingsOfLine(line);
    ReplaceNbspKeepsChar(line, '\n');
    RemoveBlankLinesOfLine(ReplaceNbsp(line), true);
  }

  /** A prefix free of '&' and ' ' after replacement was already there before it. */
  lemma {:induction false} ReplaceNbspPrefix(x: string, p: string)
    requires forall k :: 0 <= k < |p| ==> p[k] != '&' && p[k] != ' '
    ensures StartsWith(ReplaceNbsp(x), p) ==> StartsWith(x, p)
    decreases |p|
  {
    if p != [] && x != [] && !StartsWith(x, Nbsp) {
      var r := ReplaceNbsp(x[1..]);
      assert ReplaceNbsp(x) == [x[0]] + r;
      ReplaceNbspPrefix(x[1..], p[1..]);
      if StartsWith(ReplaceNbsp(x), p) {
        assert p[0] == ReplaceNbsp(x)[..|p|][0] == x[0];
        assert r[..|p| - 1] == ReplaceNbsp(x)[..|p|][1..] == p[1..];
        assert x[..|p|] == [x[0]] + x[1..][..|p| - 1];
      }
    } else if p != [] && StartsWith(x, Nbsp) {
      assert ReplaceNbsp(x)[0] == ' ';
    }
  }

  /** After the `&nbsp;` replacement no `&nbsp;` is left anywhere in the text. */
  lemma {:induction false} ReplaceNbspLeavesNone(s: string)
    ensures !Contains(ReplaceNbsp(s), Nbsp)
    decreases |s|
  {
    var r := ReplaceNbsp(s);
    if StartsWith(s, Nbsp) {
      ReplaceNbspLeavesNone(s[|Nbsp|..]);
      assert r == " " + ReplaceNbsp(s[|Nbsp|..]);
      assert r[1..] == ReplaceNbsp(s[|Nbsp|..]);
      assert r[0] == ' ';
    } else if s != [] {
      ReplaceNbspLeavesNone(s[1..]);
      var t := ReplaceNbsp(s[1..]);
      assert r == [s[0]] + t;
      assert r[1..] == t;
      ReplaceNbspPrefix(s[1..], "nbsp;");
      if |s| >= 6 {
        assert s[..6] == [s[0]] + s[1..][..5];
      }
      if |r| >= 6 {
        assert r[..6] == [s[0]] + t[..5];
      }
    } else {
      assert r == [];
    }
  }

  /** Text without `&nbsp;` is left exactly as it was. */
  lemma {:induction false} ReplaceNbspFixed(s: string)
    requires !Contains(s, Nbsp)
    ensures ReplaceNbsp(s) == s
    decreases |s|
  {
    if s != [] {
      ReplaceNbspFixed(s[1..]);
      assert s == [s[0]] + s[1..];
    }
  }

  /** Every `&nbsp;` turns into exactly one space and the text on both sides is cleaned independently. */
  lemma {:induction false} ReplaceNbspAt(a: string, b: string)
    ensures ReplaceNbsp(a + Nbsp + b) == ReplaceNbsp(a) + " " + ReplaceNbsp(b)
    decreases |a|
  {
    var s := a + Nbsp + b;
    if a == [] {
      assert s == Nbsp + b;
      assert StartsWith(s, Nbsp);
      assert s[|Nbsp|..] == b;
    } else if StartsWith(a, Nbsp) {
      assert s[..|Nbsp|] == a[..|Nbsp|];
      assert s[|Nbsp|..] == a[|Nbsp|..] + Nbsp + b;
      ReplaceNbspAt(a[|Nbsp|..], b);
      assert ReplaceNbsp(s) == " " + ReplaceNbsp(s[|Nbsp|..]);
      assert ReplaceNbsp(a) == " " + ReplaceNbsp(a[|Nbsp|..]);
    } else {
      assert !StartsWith(s, Nbsp) by {
        if |a| >= |Nbsp| {
          assert s[..|Nbsp|] == a[..|Nbsp|];
        } else {
          assert s[|a|] == '&';
        }
      }
      assert s[0] == a[0];
      assert s[1..] == a[1..] + Nbsp + b;
      ReplaceNbspAt(a[1..], b);
      assert ReplaceNbsp(s) == [a[0]] + ReplaceNbsp(s[1..]);
      assert ReplaceNbsp(a) == [a[0]] + ReplaceNbsp(a[1..]);
    }
  }

  /**
   * The lines `process_file` has kept after reading `lines`: the cleaned line is
   * skipped when it contains ':' or is already among the kept lines, else appended.
   */
  function Kept(lines: seq<string>): seq<string>
    decreases |lines|
  {
    if lines == [] then []
    else
      var prev := Kept(lines[..|lines| - 1]);
      var cleaned := CleanupBuffer(lines[|lines| - 1]);
      if ':' in cleaned || cleaned in prev then prev else prev + [cleaned]
  }

  /** One pass of the loop: the next line is appended when its cleaned form has no ':' and is new. */
  lemma KeptStep(lines: seq<string>, line: string)
    ensures Kept(lines + [line]) ==
      if ':' in CleanupBuffer(line) || CleanupBuffer(line) in Kept(lines) then Kept(lines)
      else Kept(lines) + [CleanupBuffer(line)]
  {
    assert (lines + [line])[..|lines|] == lines;
  }

  /** The string `process_file` returns: the kept lines joined with "\n". */
  function Normalize(lines: seq<string>): string
  {
    Join(Kept(lines), "\n")
  }

  /** The loop of `process_file`, with `seen` as a set and `buffer` as a sequence. */
  method ProcessFile(lines: seq<string>) returns (combined: string)
    ensures combined == Normalize(lines)
    ensures |lines| == 0 ==> combined == ""
  {
    var seen: set<string> := {};
    var buffer: seq<string> := [];
    for i := 0 to |lines|
      invariant buffer == Kept(lines[..i])
      invariant forall x :: x in seen <==> x in buffer
    {
      assert lines[..i + 1][..i] == lines[..i];
      var cleaned := CleanupBuffer(lines[i]);
      if ':' in cleaned {
        continue;
      }
      if cleaned !in seen {
        buffer := buffer + [cleaned];
        seen := seen + {cleaned};
      }
    }
    assert lines[..|lines|] == lines;
    combined := Join(buffer, "\n");
  }

  /** No kept line contains ':'. */
  lemma {:induction false} KeptColonFree(lines: seq<string>)
    ensures forall k :: 0 <= k < |Kept(lines)| ==> ':' !in Kept(lines)[k]
    decreases |lines|
  {
    if lines != [] {
      KeptColonFree(lines[..|lines| - 1]);
    }
  }

  /** The kept lines are pairwise distinct. */
  lemma {:induction false} KeptDistinct(lines: seq<string>)
    ensures forall a, b :: 0 <= a < b < |Kept(lines)| ==> Kept(lines)[a] != Kept(lines)[b]
    decreases |lines|
  {
    if lines != [] {
      KeptDistinct(lines[..|lines| - 1]);
    }
  }

  /** Every kept line is the cleaned form of some input line. */
  lemma {:induction false} KeptSound(lines: seq<string>)
    ensures forall x :: x in Kept(lines) ==>
      exists j :: 0 <= j < |lines| && CleanupBuffer(lines[j]) == x
    decreases |lines|
  {
    if lines != [] {
      var init := lines[..|lines| - 1];
      KeptSound(init);
      forall x | x in Kept(lines)
        ensures exists j :: 0 <= j < |lines| && CleanupBuffer(lines[j]) == x
      {
        if x in Kept(init) {
          var j :| 0 <= j < |init| && CleanupBuffer(init[j]) == x;
          assert lines[j] == init[j];
        } else {
          assert CleanupBuffer(lines[|lines| - 1]) == x;
        }
      }
    }
  }

  /** Every cleaned input line without ':' is kept. */
  lemma {:induction false} KeptComplete(lines: seq<string>)
    ensures forall j :: 0 <= j < |lines| && ':' !in CleanupBuffer(lines[j]) ==>
      CleanupBuffer(lines[j]) in Kept(lines)
    decreases |lines|
  {
    if lines != [] {
      var init := lines[..|lines| - 1];
      KeptComplete(init);
      forall j | 0 <= j < |lines| && ':' !in CleanupBuffer(lines[j])
        ensures CleanupBuffer(lines[j]) in Kept(lines)
      {
        if j < |init| {
          assert lines[j] == init[j];
        }
      }
    }
  }

  /**
   * The kept lines stand in the order of their first occurrence: wherever the
   * later kept line is read, the earlier one was read before.
   */
  lemma {:induction false} KeptInFirstOccurrenceOrder(lines: seq<string>)
    ensures forall a, b, j ::
      (0 <= a < b < |Kept(lines)| && 0 <= j < |lines| && CleanupBuffer(lines[j]) == Kept(lines)[b]) ==>
      exists i :: 0 <= i < j && CleanupBuffer(lines[i]) == Kept(lines)[a]
    decreases |lines|
  {
    if lines != [] {
      var init := lines[..|lines| - 1];
      var k0 := Kept(init);
      var k := Kept(lines);
      assert forall i :: 0 <= i < |init| ==> lines[i] == init[i];
      KeptInFirstOccurrenceOrder(init);
      KeptSound(init);
      KeptComplete(init);
      assert k == k0 || (k == k0 + [k[|k| - 1]] && k[|k| - 1] !in k0 && ':' !in k[|k| - 1]);
      forall a, b, j | 0 <= a < b < |k| && 0 <= j < |lines| && CleanupBuffer(lines[j]) == k[b]
        ensures exists i :: 0 <= i < j && CleanupBuffer(lines[i]) == k[a]
      {
        assert k[a] == k0[a];
        assert k0[a] in k0;
        if j == |init| {
          var i :| 0 <= i < |init| && CleanupBuffer(init[i]) == k0[a];
        } else if b < |k0| {
          assert k[b] == k0[b];
        }
      }
    }
  }

  /** A line without '&' holds no `&nbsp;` and is left as it is. */
  lemma {:induction false} ReplaceNbspNoAmpersand(s: string)
    requires '&' !in s
    ensures ReplaceNbsp(s) == s
    decreases |s|
  {
    if s != [] {
      assert s[0] != '&';
      ReplaceNbspNoAmpersand(s[1..]);
      assert s == [s[0]] + s[1..];
    }
  }

  /** A plain line (no newline, no '&') is its own cleaned form. */
  lemma PlainLine(s: string)
    requires '\n' !in s && '&' !in s
    ensures CleanupBuffer(s) == s
  {
    CleanupOfLine(s);
    ReplaceNbspNoAmpersand(s);
  }

  /** A line holding ':' is never kept, whatever else was read. */
  lemma ColonLineDropped(lines: seq<string>, line: string)
    requires '\n' !in line && ':' in line
    ensures ':' in CleanupBuffer(line) && CleanupBuffer(line) !in Kept(lines)
  {
    CleanupOfLine(line);
    ReplaceNbspKeepsChar(line, ':');
    KeptColonFree(lines);
  }

  /** A line holding ':' adds nothing to the kept lines. */
  lemma KeptDropsColonLine(lines: seq<string>, line: string)
    requires '\n' !in line && ':' in line
    ensures Kept(lines + [line]) == Kept(lines)
  {
    ColonLineDropped(lines, line);
    KeptStep(lines, line);
  }

  /** A plain line that is already kept adds nothing. */
  lemma KeptSkipsSeen(lines: seq<string>, line: string)
    requires '\n' !in line && '&' !in line && line in Kept(lines)
    ensures Kept(lines + [line]) == Kept(lines)
  {
    PlainLine(line);
    KeptStep(lines, line);
  }

  /** A plain, colon-free line that is not yet kept is appended as it is. */
  lemma KeptAddsNew(lines: seq<string>, line: string)
    requires '\n' !in line && '&' !in line && ':' !in line && line !in Kept(lines)
    ensures Kept(lines + [line]) == Kept(lines) + [line]
  {
    PlainLine(line);
    KeptStep(lines, line);
  }

  /** The lines kept from cue-only captions: each timing line is dropped, the repeated text kept once. */
  lemma CueOnlyKept(t0: string, t1: string, t2: string, a: string, b: string)
    requires '\n' !in t0 && '\n' !in t1 && '\n' !in t2 && '\n' !in a && '\n' !in b
    requires ':' in t0 && ':' in t1 && ':' in t2
    requires ':' !in a && ':' !in b && '&' !in a && '&' !in b && a != b
    ensures Kept([t0, a, t1, a, t2, b]) == [a, b]
  {
    var l0: seq<string> := [];
    KeptDropsColonLine(l0, t0);
    var l1 := l0 + [t0];
    KeptAddsNew(l1, a);
    var l2 := l1 + [a];
    KeptDropsColonLine(l2, t1);
    var l3 := l2 + [t1];
    assert a in Kept(l3);
    KeptSkipsSeen(l3, a);
    var l4 := l3 + [a];
    KeptDropsColonLine(l4, t2);
    var l5 := l4 + [t2];
    assert b !in Kept(l5);
    KeptAddsNew(l5, b);
    var l6 := l5 + [b];
    assert Kept(l6) == [a, b];
    assert l6 == [t0, a, t1, a, t2, b];
  }

  /**
   * Cue-only captions: timing lines are dropped for their ':', a repeated cue text
   * is kept once, and the kept lines are joined with a newline.
   */
  lemma CueOnlyCaptions(t0: string, t1: string, t2: string, a: string, b: string)
    requires '\n' !in t0 && '\n' !in t1 && '\n' !in t2 && '\n' !in a && '\n' !in b
    requires ':' in t0 && ':' in t1 && ':' in t2
    requires ':' !in a && ':' !in b && '&' !in a && '&' !in b && a != b
    ensures Normalize([t0, a, t1, a, t2, b]) == a + "\n" + b
  {
    CueOnlyKept(t0, t1, t2, a, b);
    assert [a, b][1..] == [b];
    assert Join([b], "\n") == b;
    assert Join([a, b], "\n") == a + "\n" + b;
  }

  /**
   * A line equal, once cleaned, to an earlier kept line adds nothing:
   * `a&nbsp;b` read after `a b` leaves the single line `a b`.
   */
  lemma NbspVariantCollapses(a: string, b: string)
    requires '\n' !in a && '&' !in a && ':' !in a
    requires '\n' !in b && '&' !in b && ':' !in b
    ensures Kept([a + " " + b, a + Nbsp + b]) == [a + " " + b]
  {
    var plain := a + " " + b;
    var lines := [plain, a + Nbsp + b];
    assert '\n' !in plain && '&' !in plain && ':' !in plain;
    assert '\n' !in a + Nbsp + b;
    PlainLine(plain);
    CleanupOfLine(a + Nbsp + b);
    ReplaceNbspNoAmpersand(a);
    ReplaceNbspNoAmpersand(b);
    ReplaceNbspAt(a, b);
    assert lines[..1] == [plain];
    var none: seq<string> := [];
    assert [plain][..0] == none;
    assert Kept([plain]) == [plain];
  }

  /** An empty input line is kept (the empty-line regex cannot see it), and only once. */
  lemma EmptyLineKeptOnce(lines: seq<string>)
    requires "" in lines
    ensures "" in Kept(lines)
    ensures forall a, b :: 0 <= a < b < |Kept(lines)| ==> Kept(lines)[a] != Kept(lines)[b]
  {
    var j :| 0 <= j < |lines| && lines[j] == "";
    CleanupOfLine("");
    KeptComplete(lines);
    KeptDistinct(lines);
  }

  /** Without newlines, the kept lines are a fixed point of cleaning, filtering and dedup. */
  lemma {:induction false} KeptOfNormal(xs: seq<string>)
    requires forall k :: 0 <= k < |xs| ==> '\n' !in xs[k] && ':' !in xs[k] && !Contains(xs[k], Nbsp)
    requires forall a, b :: 0 <= a < b < |xs| ==> xs[a] != xs[b]
    ensures Kept(xs) == xs
    decreases |xs|
  {
    if xs != [] {
      var init := xs[..|xs| - 1];
      var last := xs[|xs| - 1];
      KeptOfNormal(init);
      CleanupOfLine(last);
      ReplaceNbspFixed(last);
      assert forall a :: 0 <= a < |init| ==> init[a] == xs[a];
      assert init + [last] == xs;
    }
  }

  /**
   * Idempotence: splitting the normalised text on newlines and normalising the
   * pieces again gives the same text.
   */
  lemma Idempotent(lines: seq<string>)
    requires forall k :: 0 <= k < |lines| ==> '\n' !in lines[k]
    ensures Normalize(Split(Normalize(lines), '\n')) == Normalize(lines)
  {
    var kept := Kept(lines);
    KeptColonFree(lines);
    KeptDistinct(lines);
    KeptSound(lines);
    forall k | 0 <= k < |kept|
      ensures '\n' !in kept[k] && !Contains(kept[k], Nbsp)
    {
      assert kept[k] in kept;
      var j :| 0 <= j < |lines| && CleanupBuffer(lines[j]) == kept[k];
      CleanupOfLine(lines[j]);
      ReplaceNbspLeavesNone(lines[j]);
    }
    if kept == [] {
      assert Split("", '\n') == [""];
      assert [""][..0] == [];
      CleanupOfLine("");
      assert Kept([""]) == [""];
    } else {
      SplitJoin(kept, '\n');
      KeptOfNormal(kept);
    }
  }
}

=== FILE: summarizer.dfy ===
/**
 * The summarisation orchestration of src/summarizer.rs. The completion API is an
 * oracle: for every prompt and model it either refuses to open a stream (with an
 * error message) or opens one that delivers a fixed sequence of events.
 */
module Summarizer {
  import opened Wrappers
  import opened Text

  newtype byte = b: int | 0 <= b < 256

  /** The UTF-8 bytes of a Rust `String`. */
  type Bytes = seq<byte>

  /** `MAX_TOKENS`: the chunk size, in bytes. */
  const MaxTokens: nat := 15000

  /** `PROMPTS` holds three instruction texts. */
  const PromptCount: nat := 3

  /** The prompt catalogue `PROMPTS`; the wording of its entries is not modelled. */
  type Catalog = c: seq<Bytes> | |c| == PromptCount witness [[], [], []]

  /** The byte of the space `format!("{} {}", ..)` puts between prompt and input. */
  const Space: byte := 32

  /** A byte that continues a multi-byte UTF-8 character. */
  predicate IsContinuationByte(b: byte)
  {
    0x80 <= b < 0xC0
  }

  /** One choice of a streamed response: `choice.delta.content`. */
  datatype Choice = Choice(content: Option<string>)

  /** One item of the response stream. */
  datatype Event = Response(choices: seq<Choice>) | StreamError(message: string)

  /** What `create_stream` gives back: an open stream, or the error's message. */
  datatype Opening = Opened(events: seq<Event>) | CreateError(message: string)

  /** The completion API, for a prompt and a model. */
  type Network = (Bytes, string) -> Opening

  /** Which diagnosis `process_message_stream` logs for a stream that could not be created. */
  datatype ErrorKind = QuotaExceeded | InvalidApiKey | OtherFailure

  /** How a summarisation fails; the last two stand for panics of the source. */
  datatype Failure =
    | CreateFailed(kind: ErrorKind, message: string)
    | StreamFailed(message: string)
    | PromptIndexOutOfRange(index: nat)
    | ChunkNotUtf8(chunk: nat)

  const QuotaMarker: string := "insufficient_quota"
  const QuotaText: string := "exceeded your current quota"
  const KeyMarker: string := "invalid_api_key"
  const KeyText: string := "Incorrect API key"

  /** The substring test of `process_message_stream` on a stream-creation error, quota first. */
  function Classify(message: string): (kind: ErrorKind)
    ensures kind == QuotaExceeded <==>
      (exists i :: OccursAt(message, QuotaMarker, i)) || (exists i :: OccursAt(message, QuotaText, i))
    ensures kind == InvalidApiKey <==>
      && !(exists i :: OccursAt(message, QuotaMarker, i))
      && !(exists i :: OccursAt(message, QuotaText, i))
      && ((exists i :: OccursAt(message, KeyMarker, i)) || (exists i :: OccursAt(message, KeyText, i)))
  {
    ContainsIffOccurs(message, QuotaMarker);
    ContainsIffOccurs(message, QuotaText);
    ContainsIffOccurs(message, KeyMarker);
    ContainsIffOccurs(message, KeyText);
    if Contains(message, QuotaMarker) || Contains(message, QuotaText) then QuotaExceeded
    else if Contains(message, KeyMarker) || Contains(message, KeyText) then InvalidApiKey
    else OtherFailure
  }

  /** A quota marker anywhere in the message wins, whatever else the message says. */
  lemma QuotaWins(prefix: string, suffix: string)
    ensures Classify(prefix + QuotaMarker + suffix) == QuotaExceeded
    ensures Classify(prefix + QuotaText + suffix) == QuotaExceeded
  {
    var m := prefix + QuotaMarker + suffix;
    assert m[|prefix|..|prefix| + |QuotaMarker|] == QuotaMarker;
    assert OccursAt(m, QuotaMarker, |prefix|);
    var m' := prefix + QuotaText + suffix;
    assert m'[|prefix|..|prefix| + |QuotaText|] == QuotaText;
    assert OccursAt(m', QuotaText, |prefix|);
  }

  /** A key marker is a bad-key diagnosis unless a quota marker is also present. */
  lemma KeyMarkerIsBadKey(prefix: string, suffix: string)
    ensures Classify(prefix + KeyMarker + suffix) != OtherFailure
    ensures Classify(prefix + KeyText + suffix) != OtherFailure
  {
    var m := prefix + KeyMarker + suffix;
    assert m[|prefix|..|prefix| + |KeyMarker|] == KeyMarker;
    assert OccursAt(m, KeyMarker, |prefix|);
    var m' := prefix + KeyText + suffix;
    assert m'[|prefix|..|prefix| + |KeyText|] == KeyText;
    assert OccursAt(m', KeyText, |prefix|);
  }

  /** The `Some` contents of a response's choices, in order. */
  function SomeContents(choices: seq<Choice>): seq<string>
    decreases |choices|
  {
    if choices == [] then []
    else
      var last := choices[|choices| - 1];
      SomeContents(choices[..|choices| - 1]) + (if last.content.Some? then [last.content.value] else [])
  }

  /** The deltas of all responses among `events`, in arrival order. */
  function Deltas(events: seq<Event>): seq<string>
    decreases |events|
  {
    if events == [] then []
    else
      var last := events[|events| - 1];
      Deltas(events[..|events| - 1]) + (if last.Response? then SomeContents(last.choices) else [])
  }

  /** The position of the first stream error, or the length when there is none. */
  function FirstErrorIndex(events: seq<Event>): (k: nat)
    ensures k <= |events|
    ensures forall j :: 0 <= j < k ==> events[j].Response?
    ensures k < |events| ==> events[k].StreamError?
    decreases |events|
  {
    if events == [] || events[0].StreamError? then 0
    else 1 + FirstErrorIndex(events[1..])
  }

  /**
   * What one exchange with the API yields: a refused stream is classified and fails;
   * an open stream fails with its first error, or else gives the concatenated deltas.
   */
  function Transcribe(net: Network, prompt: Bytes, model: string): Result<string, Failure>
  {
    match net(prompt, model)
    case CreateError(m) => Err(CreateFailed(Classify(m), m))
    case Opened(events) =>
      var k := FirstErrorIndex(events);
      if k < |events| then Err(StreamFailed(events[k].message)) else Ok(Concat(Deltas(events)))
  }

  /** The loop over one response's choices: every `Some` content is pushed and counted. */
  method CollectContents(choices: seq<Choice>) returns (contents: seq<string>, count: nat)
    ensures contents == SomeContents(choices)
    ensures count == |contents|
  {
    contents := [];
    count := 0;
    for j := 0 to |choices|
      invariant contents == SomeContents(choices[..j])
      invariant count == |contents|
    {
      assert choices[..j + 1][..j] == choices[..j];
      if choices[j].content.Some? {
        contents := contents + [choices[j].content.value];
        count := count + 1;
      }
    }
    assert choices[..|choices|] == choices;
  }

  /** `process_message_stream`: the loop over the stream, pushing every delta and counting them. */
  method ProcessMessageStream(net: Network, prompt: Bytes, model: string)
    returns (r: Result<string, Failure>, deltas: nat)
    ensures r == Transcribe(net, prompt, model)
    ensures r.Ok? ==> deltas == |Deltas(net(prompt, model).events)|
  {
    var opening := net(prompt, model);
    if opening.CreateError? {
      var kind := Classify(opening.message);
      return Err(CreateFailed(kind, opening.message)), 0;
    }
    var events := opening.events;
    var buffer: seq<string> := [];
    var count: nat := 0;
    var i := 0;
    while i < |events|
      invariant 0 <= i <= |events|
      invariant forall k :: 0 <= k < i ==> events[k].Response?
      invariant buffer == Deltas(events[..i])
      invariant count == |buffer|
    {
      if events[i].StreamError? {
        return Err(StreamFailed(events[i].message)), count;
      }
      var contents, n := CollectContents(events[i].choices);
      buffer := buffer + contents;
      count := count + n;
      assert events[..i + 1][..i] == events[..i];
      i := i + 1;
    }
    assert events[..i] == events;
    r := Ok(Concat(buffer));
    deltas := count;
  }

  /** A stream that ends without errors succeeds with exactly its deltas, in order. */
  lemma TranscribeOk(net: Network, prompt: Bytes, model: string)
    ensures Transcribe(net, prompt, model).Ok? <==>
      net(prompt, model).Opened? &&
      forall j :: 0 <= j < |net(prompt, model).events| ==> net(prompt, model).events[j].Response?
    ensures Transcribe(net, prompt, model).Ok? ==>
      Transcribe(net, prompt, model).value == Concat(Deltas(net(prompt, model).events))
  {
  }

  /** The first stream error aborts the exchange with that error; no text comes back. */
  lemma TranscribeFirstError(net: Network, prompt: Bytes, model: string, k: nat)
    requires net(prompt, model).Opened?
    requires k < |net(prompt, model).events|
    requires forall j :: 0 <= j < k ==> net(prompt, model).events[j].Response?
    requires net(prompt, model).events[k].StreamError?
    ensures Transcribe(net, prompt, model) == Err(StreamFailed(net(prompt, model).events[k].message))
  {
    var events := net(prompt, model).events;
    assert FirstErrorIndex(events) == k;
  }

  /** Choices without content contribute no delta. */
  lemma {:induction false} NoContentNoDeltas(choices: seq<Choice>)
    requires forall j :: 0 <= j < |choices| ==> choices[j].content.None?
    ensures SomeContents(choices) == []
    decreases |choices|
  {
    if choices != [] {
      NoContentNoDeltas(choices[..|choices| - 1]);
    }
  }

  /** Responses without content give no deltas at all. */
  lemma {:induction false} EmptyResponsesNoDeltas(events: seq<Event>)
    requires forall j, c :: 0 <= j < |events| && events[j].Response? && 0 <= c < |events[j].choices| ==>
      events[j].choices[c].content.None?
    ensures Deltas(events) == []
    decreases |events|
  {
    if events != [] {
      var last := events[|events| - 1];
      EmptyResponsesNoDeltas(events[..|events| - 1]);
      if last.Response? {
        NoContentNoDeltas(last.choices);
      }
    }
  }

  /** A stream that completes without any content is a success with empty text, not an error. */
  lemma EmptyStreamIsEmptyText(net: Network, prompt: Bytes, model: string)
    requires net(prompt, model).Opened?
    requires forall j :: 0 <= j < |net(prompt, model).events| ==> net(prompt, model).events[j].Response?
    requires forall j, c ::
      (0 <= j < |net(prompt, model).events| && 0 <= c < |net(prompt, model).events[j].choices|) ==>
      net(prompt, model).events[j].choices[c].content.None?
    ensures Transcribe(net, prompt, model) == Ok("")
  {
    EmptyResponsesNoDeltas(net(prompt, model).events);
  }

  /** A refused stream is a failure in every diagnosis, and it keeps the API's message. */
  lemma RefusedStreamFails(net: Network, prompt: Bytes, model: string)
    requires net(prompt, model).CreateError?
    ensures Transcribe(net, prompt, model).Err?
    ensures Transcribe(net, prompt, model).error.CreateFailed?
    ensures Transcribe(net, prompt, model).error.message == net(prompt, model).message
  {
  }

  /** `input.as_bytes().chunks(MAX_TOKENS)`: consecutive slices of `MaxTokens` bytes, the last one shorter. */
  function Chunks(s: Bytes): seq<Bytes>
    decreases |s|
  {
    if s == [] then []
    else if |s| <= MaxTokens then [s]
    else [s[..MaxTokens]] + Chunks(s[MaxTokens..])
  }

  /** Concatenating the chunks gives the input back. */
  lemma {:induction false} ChunksConcat(s: Bytes)
    ensures Concat(Chunks(s)) == s
    decreases |s|
  {
    if |s| > MaxTokens {
      ChunksConcat(s[MaxTokens..]);
      assert s[..MaxTokens] + s[MaxTokens..] == s;
    } else if s != [] {
      assert Concat(Chunks(s)) == s + [];
    }
  }

  /** Every chunk is non-empty and at most `MaxTokens` long; all but the last are exactly that long. */
  lemma {:induction false} ChunkSizes(s: Bytes)
    ensures forall k :: 0 <= k < |Chunks(s)| ==> 0 < |Chunks(s)[k]| <= MaxTokens
    ensures forall k :: 0 <= k < |Chunks(s)| - 1 ==> |Chunks(s)[k]| == MaxTokens
    decreases |s|
  {
    if |s| > MaxTokens {
      ChunkSizes(s[MaxTokens..]);
      var c := Chunks(s);
      assert forall k :: 1 <= k < |c| ==> c[k] == Chunks(s[MaxTokens..])[k - 1];
    }
  }

  /** There are ceil(len / MaxTokens) chunks: none for empty input, one up to `MaxTokens` bytes. */
  lemma {:induction false} ChunkCount(s: Bytes)
    ensures |Chunks(s)| == (|s| + MaxTokens - 1) / MaxTokens
    decreases |s|
  {
    if |s| > MaxTokens {
      ChunkCount(s[MaxTokens..]);
    }
  }

  /** Chunk `k` is the slice of the input from byte `k * MaxTokens`. */
  lemma {:induction false} ChunkIsSlice(s: Bytes, k: nat)
    requires k < |Chunks(s)|
    ensures k * MaxTokens < |s|
    ensures Chunks(s)[k] == s[k * MaxTokens..if (k + 1) * MaxTokens <= |s| then (k + 1) * MaxTokens else |s|]
    decreases |s|
  {
    if k > 0 {
      var rest := s[MaxTokens..];
      ChunkIsSlice(rest, k - 1);
      assert (k - 1) * MaxTokens + MaxTokens == k * MaxTokens;
      assert Chunks(s)[k] == Chunks(rest)[k - 1];
      var hi := if k * MaxTokens <= |rest| then k * MaxTokens else |rest|;
      assert rest[(k - 1) * MaxTokens..hi] == s[k * MaxTokens..hi + MaxTokens];
    }
  }

  /** A transcript of exactly `MaxTokens` bytes is one chunk, not two. */
  lemma OneChunkAtLimit(s: Bytes)
    requires |s| == MaxTokens
    ensures Chunks(s) == [s]
  {
  }

  /** 20000 bytes make two chunks, of 15000 and 5000 bytes. */
  lemma TwoChunksFor20000(s: Bytes)
    requires |s| == 20000
    ensures |Chunks(s)| == 2 && |Chunks(s)[0]| == 15000 && |Chunks(s)[1]| == 5000
  {
    assert Chunks(s[MaxTokens..]) == [s[MaxTokens..]];
  }

  /** `String::from_utf8` of the first chunk of `s` succeeds: neither of its ends cuts a character. */
  predicate FirstChunkDecodes(s: Bytes)
    requires s != []
  {
    !IsContinuationByte(s[0]) && (|s| <= MaxTokens || !IsContinuationByte(s[MaxTokens]))
  }

  /**
   * The first loop of `process_long_input`: the chunks, or the index of the first
   * chunk whose `String::from_utf8(..).unwrap()` panics.
   */
  function DecodeChunks(s: Bytes): Result<seq<Bytes>, nat>
    decreases |s|
  {
    if s == [] then Ok([])
    else if !FirstChunkDecodes(s) then Err(0)
    else if |s| <= MaxTokens then Ok([s])
    else
      match DecodeChunks(s[MaxTokens..])
      case Ok(cs) => Ok([s[..MaxTokens]] + cs)
      case Err(k) => Err(k + 1)
  }

  /** When decoding succeeds it yields exactly the byte chunks. */
  lemma {:induction false} DecodeChunksAreChunks(s: Bytes)
    ensures DecodeChunks(s).Ok? ==> DecodeChunks(s).value == Chunks(s)
    decreases |s|
  {
    if |s| > MaxTokens {
      DecodeChunksAreChunks(s[MaxTokens..]);
    }
  }

  /** Decoding fails exactly when some cut at a multiple of `MaxTokens` falls inside a character. */
  lemma {:induction false} DecodeChunksIff(s: Bytes)
    ensures DecodeChunks(s).Ok? <==>
      forall p :: 0 <= p < |s| && p % MaxTokens == 0 ==> !IsContinuationByte(s[p])
    decreases |s|
  {
    if |s| > MaxTokens {
      var rest := s[MaxTokens..];
      DecodeChunksIff(rest);
      assert forall p :: MaxTokens <= p < |s| ==> s[p] == rest[p - MaxTokens];
      assert forall p :: MaxTokens <= p ==> (p % MaxTokens == 0 <==> (p - MaxTokens) % MaxTokens == 0);
      assert forall p :: 0 < p < MaxTokens ==> p % MaxTokens != 0;
      assert 0 % MaxTokens == 0 && MaxTokens % MaxTokens == 0;
    } else if s != [] {
      assert forall p :: 0 < p < MaxTokens ==> p % MaxTokens != 0;
      assert 0 % MaxTokens == 0;
    }
  }

  function Shifted(done: seq<Bytes>, r: Result<seq<Bytes>, nat>): Result<seq<Bytes>, nat>
  {
    match r
    case Ok(cs) => Ok(done + cs)
    case Err(k) => Err(|done| + k)
  }

  lemma ShiftedTwice(done: seq<Bytes>, c: Bytes, r: Result<seq<Bytes>, nat>)
    ensures Shifted(done, Shifted([c], r)) == Shifted(done + [c], r)
  {
    if r.Ok? {
      assert done + ([c] + r.value) == (done + [c]) + r.value;
    }
  }

  /** Decoding peels off one chunk at a time. */
  lemma DecodeStep(rest: Bytes)
    requires rest != [] && FirstChunkDecodes(rest)
    ensures var n := if |rest| <= MaxTokens then |rest| else MaxTokens;
      DecodeChunks(rest) == Shifted([rest[..n]], DecodeChunks(rest[n..]))
  {
    if |rest| <= MaxTokens {
      assert rest[..|rest|] == rest && rest[|rest|..] == [];
      assert [rest] + [] == [rest];
    }
  }

  /** The first loop of `process_long_input`, over the byte slices of the input. */
  method SplitChunks(input: Bytes) returns (r: Result<seq<Bytes>, nat>)
    ensures r == DecodeChunks(input)
  {
    var chunks: seq<Bytes> := [];
    var i := 0;
    assert input[0..] == input;
    match DecodeChunks(input) {
      case Ok(cs) => assert [] + cs == cs;
      case Err(_) =>
    }
    while i < |input|
      invariant 0 <= i <= |input|
      invariant DecodeChunks(input) == Shifted(chunks, DecodeChunks(input[i..]))
      decreases |input| - i
    {
      var rest := input[i..];
      if !FirstChunkDecodes(rest) {
        return Err(|chunks|);
      }
      var n := if |rest| <= MaxTokens then |rest| else MaxTokens;
      var hi := i + n;
      assert rest[..n] == input[i..hi];
      assert rest[n..] == input[hi..];
      DecodeStep(rest);
      ShiftedTwice(chunks, input[i..hi], DecodeChunks(input[hi..]));
      chunks := chunks + [input[i..hi]];
      i := hi;
    }
    assert input[i..] == [];
    assert chunks + [] == chunks;
    return Ok(chunks);
  }

  /** The prompt of each chunk: the template immediately followed by the chunk. */
  function PromptsFor(template: Bytes, chunks: seq<Bytes>): (ps: seq<Bytes>)
    ensures |ps| == |chunks|
    ensures forall k :: 0 <= k < |chunks| ==> ps[k] == template + chunks[k]
    decreases |chunks|
  {
    if chunks == [] then [] else [template + chunks[0]] + PromptsFor(template, chunks[1..])
  }

  /** Summaries of the chunks, one exchange each, in order; the first failure ends the run. */
  function SummarizeChunks(net: Network, template: Bytes, chunks: seq<Bytes>, model: string): Result<string, Failure>
    decreases |chunks|
  {
    if chunks == [] then Ok("")
    else
      match Transcribe(net, template + chunks[0], model)
      case Err(e) => Err(e)
      case Ok(t) =>
        match SummarizeChunks(net, template, chunks[1..], model)
        case Err(e) => Err(e)
        case Ok(u) => Ok(t + u)
  }

  /** The prompts sent, in order, while summarising the chunks. */
  ghost function Requests(net: Network, template: Bytes, chunks: seq<Bytes>, model: string): seq<Bytes>
    decreases |chunks|
  {
    if chunks == [] then []
    else
      [template + chunks[0]] +
      (if Transcribe(net, template + chunks[0], model).Err? then [] else Requests(net, template, chunks[1..], model))
  }

  /**
   * The chunk loop of `process_long_input`: no chunks give the empty text; otherwise
   * `PROMPTS[prompt]` panics on the first iteration or every chunk is exchanged.
   */
  function SummarizeWith(net: Network, prompts: Catalog, prompt: nat, chunks: seq<Bytes>, model: string): Result<string, Failure>
  {
    if chunks == [] then Ok("")
    else if prompt >= |prompts| then Err(PromptIndexOutOfRange(prompt))
    else SummarizeChunks(net, prompts[prompt], chunks, model)
  }

  /** The prompts the chunk loop sends. */
  ghost function RequestsWith(net: Network, prompts: Catalog, prompt: nat, chunks: seq<Bytes>, model: string): seq<Bytes>
  {
    if chunks == [] || prompt >= |prompts| then []
    else Requests(net, prompts[prompt], chunks, model)
  }

  /** `process_long_input`: decode the chunks, then one exchange per chunk with `PROMPTS[prompt]`. */
  function LongSummary(net: Network, prompts: Catalog, input: Bytes, prompt: nat, model: string): Result<string, Failure>
  {
    match DecodeChunks(input)
    case Err(k) => Err(ChunkNotUtf8(k))
    case Ok(chunks) => SummarizeWith(net, prompts, prompt, chunks, model)
  }

  /** The prompts `process_long_input` sends. */
  ghost function LongRequests(net: Network, prompts: Catalog, input: Bytes, prompt: nat, model: string): seq<Bytes>
  {
    match DecodeChunks(input)
    case Err(_) => []
    case Ok(chunks) => RequestsWith(net, prompts, prompt, chunks, model)
  }

  function Prefixed(done: string, r: Result<string, Failure>): Result<string, Failure>
  {
    match r
    case Ok(u) => Ok(done + u)
    case Err(e) => Err(e)
  }

  /** One step of the chunk loop: a failed exchange ends the run, a successful one extends the text. */
  lemma SummarizeStep(net: Network, template: Bytes, chunks: seq<Bytes>, model: string, i: nat, buffer: string)
    requires i < |chunks|
    ensures var t := Transcribe(net, template + chunks[i], model);
      && (t.Err? ==> Prefixed(buffer, SummarizeChunks(net, template, chunks[i..], model)) == t)
      && (t.Err? ==> Requests(net, template, chunks[i..], model) == [template + chunks[i]])
      && (t.Ok? ==> Prefixed(buffer, SummarizeChunks(net, template, chunks[i..], model)) ==
                    Prefixed(buffer + t.value, SummarizeChunks(net, template, chunks[i + 1..], model)))
      && (t.Ok? ==> Requests(net, template, chunks[i..], model) ==
                    [template + chunks[i]] + Requests(net, template, chunks[i + 1..], model))
  {
    assert chunks[i..][0] == chunks[i] && chunks[i..][1..] == chunks[i + 1..];
    var t := Transcribe(net, template + chunks[i], model);
    if t.Ok? {
      match SummarizeChunks(net, template, chunks[i + 1..], model) {
        case Ok(u) => assert buffer + (t.value + u) == (buffer + t.value) + u;
        case Err(_) =>
      }
    } else {
      assert [template + chunks[i]] + [] == [template + chunks[i]];
    }
  }

  /** Before the chunk loop: nothing is summarised and nothing is sent yet. */
  lemma SummarizeStart(net: Network, template: Bytes, chunks: seq<Bytes>, model: string)
    ensures SummarizeChunks(net, template, chunks, model) == Prefixed("", SummarizeChunks(net, template, chunks[0..], model))
    ensures Requests(net, template, chunks, model) == [] + Requests(net, template, chunks[0..], model)
  {
    assert chunks[0..] == chunks;
    match SummarizeChunks(net, template, chunks, model) {
      case Ok(u) => assert "" + u == u;
      case Err(_) =>
    }
  }

  /** After the chunk loop: no chunk is left, so the text and the trace are complete. */
  lemma SummarizeDone(net: Network, template: Bytes, chunks: seq<Bytes>, model: string, buffer: string, sent: seq<Bytes>)
    ensures Prefixed(buffer, SummarizeChunks(net, template, chunks[|chunks|..], model)) == Ok(buffer)
    ensures sent + Requests(net, template, chunks[|chunks|..], model) == sent
  {
    assert chunks[|chunks|..] == [];
    assert buffer + "" == buffer;
    assert sent + [] == sent;
  }

  /** One pass of the chunk loop: the exchange for chunk `i`, and what it leaves of the run. */
  method ExchangeChunk(net: Network, template: Bytes, chunks: seq<Bytes>, model: string, i: nat, buffer: string)
    returns (result: Result<string, Failure>)
    requires i < |chunks|
    ensures result == Transcribe(net, template + chunks[i], model)
    ensures result.Err? ==> Prefixed(buffer, SummarizeChunks(net, template, chunks[i..], model)) == result
    ensures result.Err? ==> Requests(net, template, chunks[i..], model) == [template + chunks[i]]
    ensures result.Ok? ==>
      Prefixed(buffer, SummarizeChunks(net, template, chunks[i..], model)) ==
      Prefixed(buffer + result.value, SummarizeChunks(net, template, chunks[i + 1..], model))
    ensures result.Ok? ==>
      Requests(net, template, chunks[i..], model) ==
      [template + chunks[i]] + Requests(net, template, chunks[i + 1..], model)
  {
    SummarizeStep(net, template, chunks, model, i, buffer);
    var count;
    result, count := ProcessMessageStream(net, template + chunks[i], model);
  }

  /** `process_long_input`, with the prompts sent as a ghost trace. */
  method ProcessLongInput(net: Network, prompts: Catalog, input: Bytes, prompt: nat, model: string)
    returns (r: Result<string, Failure>, ghost sent: seq<Bytes>)
    ensures r == LongSummary(net, prompts, input, prompt, model)
    ensures sent == LongRequests(net, prompts, input, prompt, model)
  {
    var split := SplitChunks(input);
    if split.Err? {
      return Err(ChunkNotUtf8(split.error)), [];
    }
    r, sent := SummarizeChunkLoop(net, prompts, prompt, split.value, model);
  }

  /** The second loop of `process_long_input`: one exchange per chunk, `PROMPTS[prompt]` indexed on each pass. */
  method SummarizeChunkLoop(net: Network, prompts: Catalog, prompt: nat, chunks: seq<Bytes>, model: string)
    returns (r: Result<string, Failure>, ghost sent: seq<Bytes>)
    ensures r == SummarizeWith(net, prompts, prompt, chunks, model)
    ensures sent == RequestsWith(net, prompts, prompt, chunks, model)
  {
    sent := [];
    ghost var template := if prompt < |prompts| then prompts[prompt] else [];
    var buffer: string := "";
    SummarizeStart(net, template, chunks, model);
    for i := 0 to |chunks|
      invariant i > 0 ==> prompt < |prompts|
      invariant i == 0 ==> sent == [] && buffer == ""
      invariant SummarizeChunks(net, template, chunks, model) ==
        Prefixed(buffer, SummarizeChunks(net, template, chunks[i..], model))
      invariant Requests(net, template, chunks, model) == sent + Requests(net, template, chunks[i..], model)
    {
      if prompt >= |prompts| {
        return Err(PromptIndexOutOfRange(prompt)), sent;
      }
      var result := ExchangeChunk(net, prompts[prompt], chunks, model, i, buffer);
      sent := sent + [prompts[prompt] + chunks[i]];
      if result.Err? {
        return result, sent;
      }
      buffer := buffer + result.value;
    }
    SummarizeDone(net, template, chunks, model, buffer, sent);
    return Ok(buffer), sent;
  }

  /** Every exchange of the chunks succeeds. */
  ghost predicate AllSucceed(net: Network, template: Bytes, chunks: seq<Bytes>, model: string)
  {
    forall k :: 0 <= k < |chunks| ==> Transcribe(net, template + chunks[k], model).Ok?
  }

  /** The texts of the exchanges, in chunk order. */
  ghost function Texts(net: Network, template: Bytes, chunks: seq<Bytes>, model: string): seq<string>
    requires AllSucceed(net, template, chunks, model)
    decreases |chunks|
  {
    if chunks == [] then []
    else
      assert forall k :: 1 <= k < |chunks| ==> chunks[1..][k - 1] == chunks[k];
      [Transcribe(net, template + chunks[0], model).value] + Texts(net, template, chunks[1..], model)
  }

  /** When every exchange succeeds, the result is their texts concatenated in chunk order, after one call per chunk. */
  lemma {:induction false} AllChunksSucceed(net: Network, template: Bytes, chunks: seq<Bytes>, model: string)
    requires AllSucceed(net, template, chunks, model)
    ensures SummarizeChunks(net, template, chunks, model) == Ok(Concat(Texts(net, template, chunks, model)))
    ensures Requests(net, template, chunks, model) == PromptsFor(template, chunks)
    decreases |chunks|
  {
    if chunks != [] {
      assert forall k :: 1 <= k < |chunks| ==> chunks[1..][k - 1] == chunks[k];
      assert Transcribe(net, template + chunks[0], model).Ok?;
      AllChunksSucceed(net, template, chunks[1..], model);
    }
  }

  /**
   * When the exchange for chunk `k` is the first to fail, the result is that failure,
   * with no partial text, and no chunk after `k` is sent.
   */
  lemma {:induction false} FirstChunkFailure(net: Network, template: Bytes, chunks: seq<Bytes>, model: string, k: nat)
    requires k < |chunks|
    requires forall j :: 0 <= j < k ==> Transcribe(net, template + chunks[j], model).Ok?
    requires Transcribe(net, template + chunks[k], model).Err?
    ensures SummarizeChunks(net, template, chunks, model) == Err(Transcribe(net, template + chunks[k], model).error)
    ensures Requests(net, template, chunks, model) == PromptsFor(template, chunks[..k + 1])
    decreases k
  {
    var e := Transcribe(net, template + chunks[k], model).error;
    if k == 0 {
      assert chunks[..1] == [chunks[0]];
      assert PromptsFor(template, [chunks[0]]) == [template + chunks[0]];
    } else {
      var rest := chunks[1..];
      assert forall j :: 0 <= j < k - 1 ==> rest[j] == chunks[j + 1];
      assert rest[k - 1] == chunks[k];
      FirstChunkFailure(net, template, rest, model, k - 1);
      assert Transcribe(net, template + chunks[0], model).Ok?;
      assert SummarizeChunks(net, template, rest, model) == Err(e);
      assert Requests(net, template, chunks, model) == [template + chunks[0]] + Requests(net, template, rest, model);
      assert chunks[..k + 1][1..] == rest[..k];
      assert chunks[..k + 1][0] == chunks[0];
    }
  }

  /** The chunked summary succeeds exactly when every chunk's exchange succeeds. */
  lemma {:induction false} SummarizeOkIff(net: Network, template: Bytes, chunks: seq<Bytes>, model: string)
    ensures SummarizeChunks(net, template, chunks, model).Ok? <==> AllSucceed(net, template, chunks, model)
    decreases |chunks|
  {
    if chunks != [] {
      SummarizeOkIff(net, template, chunks[1..], model);
      assert forall k :: 1 <= k < |chunks| ==> chunks[1..][k - 1] == chunks[k];
    }
  }

  /** The prompt of `process_short_input`: the template, one space, the input. */
  function ShortPrompt(template: Bytes, input: Bytes): (p: Bytes)
    ensures |p| == |template| + 1 + |input|
    ensures p[..|template|] == template && p[|template|] == Space && p[|template| + 1..] == input
  {
    template + [Space] + input
  }

  /** `process_short_input`: one exchange with `PROMPTS[prompt] + " " + input`. */
  function ShortSummary(net: Network, prompts: Catalog, input: Bytes, prompt: nat, model: string): Result<string, Failure>
  {
    if prompt < |prompts| then Transcribe(net, ShortPrompt(prompts[prompt], input), model)
    else Err(PromptIndexOutOfRange(prompt))
  }

  /** `process_short_input`, with the prompt sent as a ghost trace. */
  method ProcessShortInput(net: Network, prompts: Catalog, input: Bytes, prompt: nat, model: string)
    returns (r: Result<string, Failure>, ghost sent: seq<Bytes>)
    ensures r == ShortSummary(net, prompts, input, prompt, model)
    ensures sent == if prompt < |prompts| then [ShortPrompt(prompts[prompt], input)] else []
  {
    if prompt >= |prompts| {
      return Err(PromptIndexOutOfRange(prompt)), [];
    }
    var promptText := ShortPrompt(prompts[prompt], input);
    sent := [promptText];
    var result, _ := ProcessMessageStream(net, promptText, model);
    r := result;
  }
}

=== FILE: text.dfy ===
/**
 * String helpers with the semantics of the Rust standard library calls the program uses
 * (`contains`, `join`, concatenation), and `split`, which it does not call but which
 * states idempotence of the caption normaliser.
 */
module Text {

  /** `s.starts_with(p)` */
  predicate StartsWith(s: string, p: string)
  {
    |p| <= |s| && s[..|p|] == p
  }

  /** `s.contains(p)` for a string pattern: some suffix of `s` starts with `p`. */
  predicate Contains(s: string, p: string)
    decreases |s|
  {
    StartsWith(s, p) || (|s| > 0 && Contains(s[1..], p))
  }

  /** `p` occurs in `s` at position `i`. */
  ghost predicate OccursAt(s: string, p: string, i: int)
  {
    0 <= i && i + |p| <= |s| && s[i..i + |p|] == p
  }

  /** The suffix scan of `Contains` finds exactly the positions at which `p` occurs. */
  lemma {:induction false} ContainsIffOccurs(s: string, p: string)
    ensures Contains(s, p) <==> exists i :: OccursAt(s, p, i)
    decreases |s|
  {
    if Contains(s, p) {
      if StartsWith(s, p) {
        assert OccursAt(s, p, 0);
      } else {
        ContainsIffOccurs(s[1..], p);
        var i :| OccursAt(s[1..], p, i);
        assert s[1..][i..i + |p|] == s[i + 1..i + 1 + |p|];
        assert OccursAt(s, p, i + 1);
      }
    }
    if exists i :: OccursAt(s, p, i) {
      var i :| OccursAt(s, p, i);
      if i > 0 {
        assert s[1..][i - 1..i - 1 + |p|] == s[i..i + |p|];
        assert OccursAt(s[1..], p, i - 1);
        ContainsIffOccurs(s[1..], p);
      }
    }
  }

  /** `xs.join(sep)`: the elements with `sep` between neighbours and nowhere else. */
  function Join(xs: seq<string>, sep: string): string
    decreases |xs|
  {
    if xs == [] then ""
    else if |xs| == 1 then xs[0]
    else xs[0] + sep + Join(xs[1..], sep)
  }

  /** `s.split(d)` for a single character: the pieces between occurrences of `d` (used to state idempotence). */
  function Split(s: string, d: char): (r: seq<string>)
    ensures |r| >= 1
    decreases |s|
  {
    if s == [] then [""]
    else
      var rest := Split(s[1..], d);
      if s[0] == d then [""] + rest
      else [[s[0]] + rest[0]] + rest[1..]
  }

  /** Concatenation of a sequence of sequences (`join("")`, `concat()`). */
  function Concat<T>(xs: seq<seq<T>>): seq<T>
    decreases |xs|
  {
    if xs == [] then [] else xs[0] + Concat(xs[1..])
  }

  /** A delimiter-free prefix stays glued to the first piece of what follows. */
  lemma {:induction false} SplitPrefix(a: string, t: string, d: char)
    requires d !in a
    ensures Split(a + t, d) == [a + Split(t, d)[0]] + Split(t, d)[1..]
    decreases |a|
  {
    if a != [] {
      assert (a + t)[0] == a[0];
      assert (a + t)[1..] == a[1..] + t;
      SplitPrefix(a[1..], t, d);
      assert [a[0]] + (a[1..] + Split(t, d)[0]) == a + Split(t, d)[0];
    } else {
      assert a + t == t;
      assert a + Split(t, d)[0] == Split(t, d)[0];
      assert [Split(t, d)[0]] + Split(t, d)[1..] == Split(t, d);
    }
  }

  /** Splitting the join of delimiter-free pieces on the delimiter gives the pieces back. */
  lemma {:induction false} SplitJoin(xs: seq<string>, d: char)
    requires xs != []
    requires forall k :: 0 <= k < |xs| ==> d !in xs[k]
    ensures Split(Join(xs, [d]), d) == xs
    decreases |xs|
  {
    if |xs| == 1 {
      SplitPrefix(xs[0], "", d);
      assert xs[0] + "" == xs[0];
    } else {
      var rest := Join(xs[1..], [d]);
      SplitJoin(xs[1..], d);
      assert Join(xs, [d]) == xs[0] + ([d] + rest);
      SplitPrefix(xs[0], [d] + rest, d);
      assert ([d] + rest)[1..] == rest;
      assert Split([d] + rest, d) == [""] + Split(rest, d);
      assert xs[0] + "" == xs[0];
      assert [xs[0]] + xs[1..] == xs;
    }
  }
}

=== FILE: wrappers.dfy ===
/** Option and Result values, standing for Rust's `Option<T>` and `Result<T, E>`. */
module Wrappers {

  datatype Option<+T> = None | Some(value: T)

  datatype Result<+T, +E> = Ok(value: T) | Err(error: E)
}
